=== FILE: README.md ===
# Smart goal planner — a verified model of its goal logic

The smart goal planner is a browser script that lists savings goals fetched
from a JSON goal resource, lets the user create goals, deposit into them, edit
and delete them, and shows an overview panel (goal count, total saved,
completed count, deadline warnings). This project models, in Dafny, the logic
inside that script once the DOM and `fetch` are stripped away:

- `goals.dfy` — module `Goals`: the `Goal` record and what "completed" means.
- `progress.dfy` — module `Progress`: the progress percentage on each card,
  `Math.min(100, Math.floor(saved / target * 100))`, including what it does for
  a zero target (Infinity clamped to 100, NaN for 0/0, -Infinity for negative
  savings).
- `mutations.dfy` — module `Mutations`: the four handlers as pure functions
  from what the user entered to the request they send (or the alert they show),
  and the merge of a PATCH body into a stored goal.
- `overview.dfy` — module `Overview`: `updateOverview` — the reduce, the
  filter and the per-goal warning classification with its 30-day window.
- `dates.dfy` — module `Dates`: the edit form's date input, which keeps a
  stored deadline only when it is a valid `YYYY-MM-DD` date and shows it blank
  otherwise.
- `store.dfy` — module `Store`: the goal list the next refresh fetches after
  each request, which ties the handlers to the overview figures (a deposit
  raises the total by its amount, a confirmed delete removes exactly one goal).
- `wrappers.dfy` — module `Wrappers`: `Option` (None stands for JavaScript's
  NaN) and `Result` (a handler that issues a request or shows an alert).

Conventions: amounts are mathematical `real`s; a number that went through
`parseFloat` is an `Option<real>`; dates are strings, looked inside only by the
date input of `Dates`; the days left
until a deadline are supplied by a function `daysUntil` from the deadline text
to `Option<real>`, which stands for `(new Date(deadline) - now) / 86400000`
with `now` fixed for one drawing of the panel (None when the date does not
parse, making the difference NaN); the UTC date of the client's clock at creation
(`new Date().toISOString()` cut at `T`) is the parameter `today`; the confirmation dialog's answer is the boolean
`confirmed`; the identifier the resource gives a new goal is `newId`.

For a zero target, app.js:49 yields 100 when something is saved, NaN for
0/0 and -Infinity for negative savings; `Progress.Percent` carries all three.
A NaN target is sent by `JSON.stringify` as `null`, which a `Goal` cannot
hold, so `Materialize`, `MergeFields` and `Store.Apply` return None for it.

## Model

| member | source | states |
|---|---|---|
| Progress.ProgressOf | smart-goal-planner/app.js:49 | the percentage never exceeds 100; it is a whole number for any non-zero target and is at least 0 when the target is positive and the savings are not negative; with a zero target it is 100 when something is saved (Infinity clamped), NaN when nothing is, and -Infinity when the savings are negative |
| Progress.FloorBracketsSaved | smart-goal-planner/app.js:49 | for a positive target, `floor(saved/target*100)` percent of the target is at most the savings and one more percent exceeds them |
| Progress.ProgressIsLargestCoveredPercent | smart-goal-planner/app.js:49 | for a positive target the bar shows the largest whole p up to 100 with p percent of the target saved — below 100 this is exactly the floor of the saved/target ratio in percent |
| Progress.ProgressFullIffComplete | smart-goal-planner/app.js:49 | for a positive target the bar reads 100 exactly when the goal is complete (saved at least the target) |
| Progress.ProgressMonotone | smart-goal-planner/app.js:49 | for a positive target more savings never show a smaller percentage |
| Mutations.SubmitNewGoal | smart-goal-planner/app.js:22-29 | the posted record has savedAmount 0, name, category, deadline and parsed target taken unchanged from the form, and the client's date as createdAt |
| Mutations.Materialize | smart-goal-planner/app.js:22-35 | a posted record becomes a stored goal under the assigned identifier with the posted savings exactly when its target is a number |
| Mutations.NewGoalRoundTrip | smart-goal-planner/app.js:22-29 | a newly created goal whose name and category hold no double quote, `&`, NUL or line break and whose deadline is a valid date string reopens in the edit form exactly as typed, has nothing saved and the assigned identifier, and shows 0 percent when its target is positive |
| Mutations.SubmitDeposit | smart-goal-planner/app.js:78-86 | a NaN or non-positive amount is refused with the "Please enter a valid deposit amount." alert and nothing is sent; otherwise a saved-amount patch for that goal is sent whose value exceeds the card's savings by exactly the amount |
| Mutations.DepositAlertOnlyForZero | smart-goal-planner/app.js:63-81 | for an entry the deposit input itself accepts (present, at least 0, whole cents), the handler's alert fires exactly for 0, and every accepted deposit is at least 0.01 |
| Mutations.MergeSaved | smart-goal-planner/app.js:83-86 | a saved-amount patch sets the savings and leaves every other field of the goal as it was |
| Mutations.DepositOnlyRaisesSavings | smart-goal-planner/app.js:78-86 | after an accepted deposit only the savings differ, they grow by the amount, a complete goal stays complete and the progress bar never shrinks |
| Mutations.AttributeText | smart-goal-planner/app.js:110-112 | text pasted unescaped into `value="…"` shows as its prefix up to, and not including, the first double quote |
| Mutations.AttributeTextKeepsUnquoted | smart-goal-planner/app.js:110-112 | text without a double quote shows whole |
| Mutations.EditFormOf | smart-goal-planner/app.js:110-113 | the edit form shows the goal's target; its deadline when that is a valid date string and an empty date field exactly when it is not; and prefixes of its name and category that equal them exactly when they hold no double quote |
| Dates.DateInputValue | smart-goal-planner/app.js:113 | the date input holds either nothing or a valid date string; it is empty exactly when the stored deadline is not a valid date string, and otherwise holds that deadline |
| Dates.DateInputValueIdempotent | smart-goal-planner/app.js:113 | a value read back from the date input is kept when written into it again |
| Dates.DateInputExamples | smart-goal-planner/app.js:113 | `2024-02-29` is kept, while `2023-02-29`, `2026-02-30` and `next week` show as an empty date field |
| Mutations.SubmitEdit | smart-goal-planner/app.js:132-142 | the edit patch names the edited goal and carries only name, target, category and deadline from the form |
| Mutations.MergeFields | smart-goal-planner/app.js:132-142 | an edit patch yields a goal exactly when its target is a number; identifier, savings and creation date are kept, name, target, category and deadline are the patch's, and the goal's edit form then shows exactly the patch when its name and category hold no double quote, `&`, NUL or line break and its deadline is a valid date string |
| Mutations.UnchangedEditIsIdentity | smart-goal-planner/app.js:110-137 | saving the pre-filled edit form untouched gives back the same goal when its name and category hold no double quote, `&`, NUL or line break and its deadline is a valid date string |
| Mutations.UnchangedEditCutsAtQuote | smart-goal-planner/app.js:110-137 | when name and category hold no `&`, NUL or line break, neither starts with a double quote and the deadline is a valid date string (so no required field shows empty), saving the pre-filled edit form untouched cuts them at their first double quote, and changes the goal exactly when one of them holds a double quote |
| Mutations.QuotedNameExample | smart-goal-planner/app.js:110 | a goal named `Buy 65" TV` shows `Buy 65` in its edit form |
| Mutations.ClickDelete | smart-goal-planner/app.js:94-96 | a delete request for that goal exists exactly when the confirmation answered yes; otherwise nothing is sent |
| Overview.TotalSaved | smart-goal-planner/app.js:152 | the total saved is the left fold `sum + g.savedAmount` from 0 over the list; with no negative savings it is not negative |
| Overview.TotalSavedAppend | smart-goal-planner/app.js:152 | the total of two lists joined is the sum of their totals |
| Overview.TotalSavedPointwise | smart-goal-planner/app.js:152 | lists agreeing on every saved amount have the same total |
| Overview.TotalSavedPointUpdate | smart-goal-planner/app.js:152 | changing one goal's savings changes the total by exactly that difference |
| Overview.TotalSavedSplitAt | smart-goal-planner/app.js:152 | the total is the total before a goal, plus that goal's savings, plus the total after it |
| Overview.TotalSavedWithout | smart-goal-planner/app.js:152 | taking one goal out takes exactly its savings out of the total |
| Overview.Completed | smart-goal-planner/app.js:153 | the filtered list is no longer than the goal list and holds exactly the goals whose savings reach their target |
| Overview.CompletedPositionsStep | smart-goal-planner/app.js:153 | one more goal adds its position to the completed positions exactly when it is complete |
| Overview.CompletedCountsPositions | smart-goal-planner/app.js:153 | the completed count equals the number of positions holding a completed goal |
| Overview.CompletedMonotone | smart-goal-planner/app.js:153 | if every complete goal stays complete, the completed count does not fall |
| Overview.Text | smart-goal-planner/app.js:171-180 | every warning line starts with `Goal "` followed by the goal's name |
| Overview.Classify | smart-goal-planner/app.js:168-181 | a complete goal gets no warning whatever its deadline; an incomplete one is Overdue exactly when fewer than 0 days are left and Upcoming exactly when 0 to 30 days are left (so 0 days is Upcoming), and gets nothing beyond 30 days or when the days left are NaN |
| Overview.Warnings | smart-goal-planner/app.js:164-183 | there are no more warning lines than goals |
| Overview.WarnedPositions | smart-goal-planner/app.js:164-183 | the warned positions are positions of the goal list |
| Overview.WarningsMatchPositionsInLength | smart-goal-planner/app.js:164-183 | there is one warning line per warned goal |
| Overview.WarnedPositionsIncrease | smart-goal-planner/app.js:164-183 | warned positions are strictly increasing: lines follow goal order and no goal is warned twice |
| Overview.WarnedPositionsExact | smart-goal-planner/app.js:164-183 | a position is warned exactly when its goal is classified Overdue or Upcoming |
| Overview.WarningsComeFromWarnedGoals | smart-goal-planner/app.js:164-183 | the k-th warning line carries the severity, name and deadline of the goal at the k-th warned position |
| Overview.WarningsBound | smart-goal-planner/app.js:164-183 | the number of warning lines is at most the goal count minus the completed count |
| Overview.ComputeOverview | smart-goal-planner/app.js:150-183 | the loop yields goal count = list length, total saved = the left-to-right sum, completed count = the filter's length (at most the goal count), and the warning lines of the panel, whose number plus the completed count is at most the goal count |
| Overview.OverviewExample | smart-goal-planner/app.js:150-183 | a goal that reached its 1000 target yesterday and one at 100 of 500 due in ten days give total saved 1100, one completed goal and a single Upcoming line for the second goal |
| Store.ReplaceById | smart-goal-planner/app.js:83-86 | a patch changes the goals carrying its identifier and leaves every other goal and the list length alone |
| Store.RemoveById | smart-goal-planner/app.js:95 | after a delete the list holds exactly the goals with a different identifier |
| Store.Apply | smart-goal-planner/app.js:31-35 | a saved-amount patch or a delete always leaves a well-formed list; patches keep the length, a delete never grows it, a post grows it by one |
| Store.RemoveByIdAppend | smart-goal-planner/app.js:95 | removal by identifier distributes over joined lists |
| Store.RemoveAbsentId | smart-goal-planner/app.js:95 | removing an identifier no goal carries changes nothing |
| Store.RemoveUniqueAt | smart-goal-planner/app.js:94-96 | with distinct identifiers, deleting the k-th goal leaves the others in order |
| Store.ConfirmedDeleteRemovesOneGoal | smart-goal-planner/app.js:94-96 | a confirmed delete removes that goal and no other and takes its savings out of the total saved |
| Store.DepositRaisesTotalByAmount | smart-goal-planner/app.js:78-89 | an accepted deposit on a freshly fetched list keeps the goal count, raises the total saved by exactly the amount and never lowers the completed count |
| Store.EditKeepsTotalSaved | smart-goal-planner/app.js:132-145 | a saved edit with a numeric target keeps the goal count and the total saved |
| Store.CreateAppendsEmptyGoal | smart-goal-planner/app.js:22-39 | a created goal joins the end of the list under the assigned identifier with nothing saved; the total saved is unchanged and the completed count grows only when the target is not positive |

## Left out

- Network I/O: the `fetch` calls, the HTTP endpoints, JSON (de)serialisation and the refresh after every mutation (`fetchAndDisplayGoals`). The goal resource's behaviour — POST appends, PATCH replaces the fields sent, DELETE removes by identifier — is an assumption of `Store`, since the backend is not part of the planner.
- Mutations.EditFormOf: models only the cut at the first double quote of the unescaped `value="…"` attribute; character references (`&amp;` and the like) that the HTML parser decodes and the line breaks a text input strips are not modelled, nor is the NUL character, which the parser replaces by U+FFFD; so the round-trip lemmas exclude `&`, NUL, `\n` and `\r` in name and category. Text after the first double quote is not dropped by the browser: it is parsed as further attributes of the `<input>` (or, past a `>`, as further markup). Its effect is not modelled: an injected `form="x"` detaches the field so that the PATCH omits it, and an unclosed `'` swallows the rest of the template so the Cancel button is missing and app.js:123 throws before the form can be saved.
- Mutations.UnchangedEditCutsAtQuote: states nothing for a name or category holding `&`, NUL or a line break (the parser rewrites those), nor for one starting with a double quote or a deadline that is not a valid date string: that field then shows empty and its `required` input blocks the save. It also assumes the text after the first double quote is inert markup; a name like `Goal" form="x` instead keeps its stored name, and `Goal" x='` cannot be saved at all (see the `Mutations.EditFormOf` line).
- Mutations.UnchangedEditIsIdentity: assumes the stored deadline is a valid date string; otherwise the date input shows empty and its `required` attribute blocks the save, which the model does not follow further.
- Mutations.NewGoalRoundTrip: assumes the new-goal form's deadline is a valid date string; the page markup holding that form is not part of this model, so what its deadline field accepts is not known here.
- Dates.DateInputValue: browsers also cap the year of a date input (at 275760 in common engines); the model accepts any year above zero.
- Mutations.MergeFields: the round trip through the edit form is stated only for a patch whose deadline is a valid date string, since the date input blanks any other.
- Browser constraint validation: the deposit input's `required min="0" step="0.01"` (app.js:63) and the edit inputs' `required` and default step 1 counted from the `value` attribute (app.js:110-113) are checked before the submit event fires. `SubmitDeposit`, `SubmitEdit` and `SubmitNewGoal` are modelled as if every submit reached them; only the deposit input's checks are stated, as `DepositInputValid`, in `DepositAlertOnlyForZero`.
- The red and orange colours of warning lines (app.js:172, 178): they are presentation of `Severity` (Overdue is red, Upcoming orange) and are not modelled separately.
- DOM construction, `innerHTML` templates, event wiring, `alert` and `confirm`; the confirmation is the boolean `confirmed`, the alert is the `Failure` text.
- The Cancel button of the edit form (lines 123-126): it only removes the card and refetches, so it changes no goal.
- `Date` parsing, the `new Date()` clock and `toISOString`: the days left come from the `daysUntil` parameter and the creation date from `today`.
- `parseFloat` itself: form amounts arrive already parsed; `Infinity` (which `parseFloat("Infinity")` returns and the deposit check accepts) is not representable in `Option<real>`.
- `toFixed(2)` formatting and IEEE-754 rounding, including signed zero: amounts are exact reals.
- The lost-update race between overlapping deposits: it comes from asynchronous concurrency, not from the sequential logic; `Store.DepositRaisesTotalByAmount` assumes the card's copy of the goal is the stored one.
- Goals stored with a `null` target (after a NaN target is posted or saved): `Materialize`, `MergeFields` and `Store.Apply` report them as None rather than modelling how the page then renders them.
- Progress.ProgressIsLargestCoveredPercent: stated for positive targets only; for negative targets only the bound of `ProgressOf` (at most 100, a whole number) is stated.

=== FILE: dates.dfy ===
/** The date input of the edit form. HTML's value sanitization for
    `<input type="date">` keeps a value only when it is a valid date string
    and otherwise sets the value to the empty string, so a stored deadline in
    any other form shows up blank. */
module Dates {
  import opened Goals

  predicate IsDigit(c: char) {
    '0' <= c <= '9'
  }

  predicate AllDigits(s: string) {
    forall i :: 0 <= i < |s| ==> IsDigit(s[i])
  }

  /** The number a run of decimal digits spells, most significant first. */
  function DigitsValue(s: string): nat
    requires AllDigits(s)
  {
    if |s| == 0 then 0 else DigitsValue(s[..|s| - 1]) * 10 + Digit(s[|s| - 1])
  }

  /** Gregorian leap years. */
  predicate IsLeapYear(y: int) {
    y % 400 == 0 || (y % 4 == 0 && y % 100 != 0)
  }

  function DaysInMonth(y: int, m: int): (n: int)
    ensures 28 <= n <= 31
  {
    if m == 2 then (if IsLeapYear(y) then 29 else 28)
    else if m == 4 || m == 6 || m == 9 || m == 11 then 30
    else 31
  }

  /** A valid date string in the sense of HTML: four or more digits naming a
      year above zero, `-`, two digits naming a month from 1 to 12, `-`, and two
      digits naming a day that exists in that month of that year. */
  predicate IsValidDateString(d: DateText) {
    && |d| >= 10
    && d[|d| - 6] == '-' && d[|d| - 3] == '-'
    && AllDigits(d[..|d| - 6]) && AllDigits(d[|d| - 5..|d| - 3]) && AllDigits(d[|d| - 2..])
    && var year := DigitsValue(d[..|d| - 6]);
       var month := DigitsValue(d[|d| - 5..|d| - 3]);
       var day := DigitsValue(d[|d| - 2..]);
       && year > 0
       && 1 <= month <= 12
       && 1 <= day <= DaysInMonth(year, month)
  }

  /** The value a date input holds after `value="d"`: `d` itself when it is a
      valid date string, the empty string otherwise. */
  function DateInputValue(d: DateText): (v: DateText)
    ensures v == "" || IsValidDateString(v)
    ensures v == "" <==> !IsValidDateString(d)
    ensures v != "" ==> v == d
  {
    if IsValidDateString(d) then d else ""
  }

  /** Reading a date input back and writing it again changes nothing. */
  lemma DateInputValueIdempotent(d: DateText)
    ensures DateInputValue(DateInputValue(d)) == DateInputValue(d)
  {
  }

  function Digit(c: char): int {
    c as int - '0' as int
  }

  /** A two-digit run spells tens and units. */
  lemma TwoDigits(s: string)
    requires |s| == 2 && AllDigits(s)
    ensures DigitsValue(s) == 10 * Digit(s[0]) + Digit(s[1])
  {
    assert DigitsValue(s[..1]) == Digit(s[0]) by {
      assert s[..1][..0] == [];
    }
  }

  /** A four-digit run spells thousands, hundreds, tens and units. */
  lemma FourDigits(s: string)
    requires |s| == 4 && AllDigits(s)
    ensures DigitsValue(s) == 1000 * Digit(s[0]) + 100 * Digit(s[1]) + 10 * Digit(s[2]) + Digit(s[3])
  {
    TwoDigits(s[..2]);
    assert s[..3][..2] == s[..2];
  }

  /** The year, month and day fields of a ten-character date. */
  lemma DateFields(d: DateText)
    requires |d| == 10 && d[4] == '-' && d[7] == '-'
    requires AllDigits(d[..4]) && AllDigits(d[5..7]) && AllDigits(d[8..])
    ensures DigitsValue(d[..4]) == 1000 * Digit(d[0]) + 100 * Digit(d[1]) + 10 * Digit(d[2]) + Digit(d[3])
    ensures DigitsValue(d[5..7]) == 10 * Digit(d[5]) + Digit(d[6])
    ensures DigitsValue(d[8..]) == 10 * Digit(d[8]) + Digit(d[9])
  {
    FourDigits(d[..4]);
    TwoDigits(d[5..7]);
    TwoDigits(d[8..]);
  }

  /** Dates the input keeps and dates it blanks: an existing leap day stays, a
      leap day of a common year, the thirtieth of February and free text do not. */
  lemma DateInputExamples()
    ensures DateInputValue("2024-02-29") == "2024-02-29"
    ensures DateInputValue("2023-02-29") == ""
    ensures DateInputValue("2026-02-30") == ""
    ensures DateInputValue("next week") == ""
  {
    DateFields("2024-02-29");
    DateFields("2023-02-29");
    DateFields("2026-02-30");
  }
}

=== FILE: goals.dfy ===
/** The one entity of the planner: a savings goal as the goal resource returns it. */
module Goals {

  /** Server-assigned, opaque identifier. */
  type Id = string

  /** A calendar date as stored, normally "YYYY-MM-DD"; the resource does not
      enforce that form, and only the edit form's date input looks inside it. */
  type DateText = string

  /** Amounts are mathematical reals, not IEEE-754 doubles. */
  datatype Goal = Goal(
    id: Id,
    name: string,
    targetAmount: real,
    savedAmount: real,
    category: string,
    deadline: DateText,
    createdAt: DateText)

  /** A goal counts as completed once the savings reach the target. */
  predicate IsComplete(g: Goal) {
    g.savedAmount >= g.targetAmount
  }

  /** No two goals of a fetched list share an identifier. */
  ghost predicate UniqueIds(gs: seq<Goal>) {
    forall i, j :: 0 <= i < |gs| && 0 <= j < |gs| && i != j ==> gs[i].id != gs[j].id
  }
}

=== FILE: mutations.dfy ===
/** The goal-changing handlers of the planner, stripped of the DOM and of `fetch`:
    each one turns what the user entered into the HTTP request it would issue (or
    the alert it shows instead), and the PATCH merge says how a stored goal takes
    that request. */
module Mutations {
  import opened Wrappers
  import opened Goals
  import opened Progress
  import opened Dates

  /** The four fields of both the new-goal form and the inline edit form. The
      target has already been through `parseFloat`: None is NaN. */
  datatype GoalForm = GoalForm(
    name: string,
    targetAmount: Option<real>,
    category: string,
    deadline: DateText)

  /** The record the new-goal handler posts. A NaN target travels as JSON `null`. */
  datatype NewGoal = NewGoal(
    name: string,
    targetAmount: Option<real>,
    savedAmount: real,
    category: string,
    deadline: DateText,
    createdAt: DateText)

  /** The requests the handlers send to the goal resource. */
  datatype Request =
    | Post(record: NewGoal)                 // POST /goals
    | PatchSaved(id: Id, savedAmount: real) // PATCH /goals/{id} with {savedAmount}
    | PatchFields(id: Id, fields: GoalForm) // PATCH /goals/{id} with the four edited fields
    | Delete(id: Id)                        // DELETE /goals/{id}

  const InvalidDepositAlert: string := "Please enter a valid deposit amount."

  /** Submitting the new-goal form: every new goal starts with nothing saved, the
      text fields are taken as typed and `today` is the client's date. */
  function SubmitNewGoal(form: GoalForm, today: DateText): (r: Request)
    ensures r.Post?
    ensures r.record.savedAmount == 0.0
    ensures r.record.name == form.name && r.record.category == form.category
    ensures r.record.deadline == form.deadline && r.record.targetAmount == form.targetAmount
    ensures r.record.createdAt == today
  {
    Post(NewGoal(form.name, form.targetAmount, 0.0, form.category, form.deadline, today))
  }

  /** The deposit input's own checks, which run before the submit handler:
      `required` refuses an empty (NaN) entry, `min="0"` a negative one, and
      `step="0.01"` (counted from the minimum) anything that is not whole cents. */
  predicate DepositInputValid(amount: Option<real>) {
    amount.Some? && amount.value >= 0.0 && (amount.value * 100.0).Floor as real == amount.value * 100.0
  }

  /** Submitting a deposit on the card of goal `g`. A NaN or non-positive amount is
      refused with an alert before anything is sent; otherwise the new total, read
      off the card's copy of the goal, is sent for that goal only. */
  function SubmitDeposit(g: Goal, amount: Option<real>): (r: Result<Request, string>)
    ensures r.Failure? <==> amount.None? || amount.value <= 0.0
    ensures r.Failure? ==> r.error == InvalidDepositAlert
    ensures r.Success? ==> r.value.PatchSaved? && r.value.id == g.id
    ensures r.Success? ==> r.value.savedAmount - g.savedAmount == amount.value
    ensures r.Success? ==> r.value.savedAmount > g.savedAmount
  {
    match amount
    case None => Failure(InvalidDepositAlert)
    case Some(a) =>
      if a <= 0.0 then Failure(InvalidDepositAlert)
      else Success(PatchSaved(g.id, g.savedAmount + a))
  }

  /** The text an `<input value="…">` shows when `s` is pasted between the quotes
      without escaping: the attribute ends at the first double quote. */
  function AttributeText(s: string): (r: string)
    ensures r <= s
    ensures '"' !in r
    ensures |r| < |s| ==> s[|r|] == '"'
  {
    if |s| == 0 || s[0] == '"' then "" else [s[0]] + AttributeText(s[1..])
  }

  /** Text the HTML parser and a text input leave alone inside a double-quoted
      attribute: no `&` starts a character reference, no NUL is replaced by
      U+FFFD, and no line break is stripped. */
  predicate UnalteredByParser(s: string) {
    forall i :: 0 <= i < |s| ==> s[i] != '&' && s[i] != '\0' && s[i] != '\n' && s[i] != '\r'
  }

  /** Text that reads back unchanged from an unescaped attribute and a text input:
      besides being left alone by the parser, no double quote ends it early. */
  predicate SurvivesAttribute(s: string) {
    UnalteredByParser(s) && '"' !in s
  }

  /** Text without a double quote passes through the attribute whole. */
  lemma {:induction false} AttributeTextKeepsUnquoted(s: string)
    ensures '"' !in s ==> AttributeText(s) == s
  {
    if |s| > 0 && '"' !in s {
      assert forall c :: c in s[1..] ==> c in s;
      AttributeTextKeepsUnquoted(s[1..]);
    }
  }

  /** Past the input's own checks, the handler's alert fires only for a zero
      deposit, and every accepted deposit is a whole number of cents. */
  lemma DepositAlertOnlyForZero(g: Goal, amount: Option<real>)
    requires DepositInputValid(amount)
    ensures SubmitDeposit(g, amount).Failure? <==> amount.value == 0.0
    ensures SubmitDeposit(g, amount).Success? ==> amount.value >= 0.01
  {
  }

  /** The edit form of goal `g`, pre-filled with its current values. Name and
      category are pasted into `value="…"` unescaped; the target is written out
      as a number; the deadline goes into a date input, which blanks anything that
      is not a valid date string. */
  function EditFormOf(g: Goal): (f: GoalForm)
    ensures f.targetAmount == Some(g.targetAmount)
    ensures IsValidDateString(g.deadline) ==> f.deadline == g.deadline
    ensures f.deadline == "" <==> !IsValidDateString(g.deadline)
    ensures f.name <= g.name && f.category <= g.category
    ensures f.name == g.name <==> '"' !in g.name
    ensures f.category == g.category <==> '"' !in g.category
  {
    AttributeTextKeepsUnquoted(g.name);
    AttributeTextKeepsUnquoted(g.category);
    GoalForm(AttributeText(g.name), Some(g.targetAmount), AttributeText(g.category), DateInputValue(g.deadline))
  }

  /** Saving the edit form of goal `g`: the patch names that goal and carries the
      four form fields and nothing else. */
  function SubmitEdit(g: Goal, form: GoalForm): (r: Request)
    ensures r.PatchFields? && r.id == g.id && r.fields == form
  {
    PatchFields(g.id, form)
  }

  /** Clicking Delete on the card of goal `g`: the request exists only when the
      confirmation dialog answered yes. */
  function ClickDelete(g: Goal, confirmed: bool): (r: Option<Request>)
    ensures r.Some? <==> confirmed
    ensures r.Some? ==> r.value.Delete? && r.value.id == g.id
  {
    if confirmed then Some(Delete(g.id)) else None
  }

  /** The goal the resource stores for a posted record under the identifier it
      assigns. A NaN target is stored as `null`, which is not a well-formed goal. */
  function Materialize(rec: NewGoal, id: Id): (r: Option<Goal>)
    ensures r.Some? <==> rec.targetAmount.Some?
    ensures r.Some? ==> r.value.id == id && r.value.savedAmount == rec.savedAmount
  {
    match rec.targetAmount
    case None => None
    case Some(t) => Some(Goal(id, rec.name, t, rec.savedAmount, rec.category, rec.deadline, rec.createdAt))
  }

  /** A PATCH of the saved amount replaces that field and no other. */
  function MergeSaved(g: Goal, saved: real): (r: Goal)
    ensures r.savedAmount == saved
    ensures r.(savedAmount := g.savedAmount) == g
  {
    g.(savedAmount := saved)
  }

  /** A PATCH of the edit fields replaces name, target, category and deadline and
      keeps identifier, savings and creation date. A NaN target is stored as `null`,
      which is not a well-formed goal. */
  function MergeFields(g: Goal, f: GoalForm): (r: Option<Goal>)
    ensures r.Some? <==> f.targetAmount.Some?
    ensures r.Some? ==> r.value.id == g.id && r.value.savedAmount == g.savedAmount
                        && r.value.createdAt == g.createdAt
    ensures r.Some? ==> r.value.name == f.name && r.value.targetAmount == f.targetAmount.value
                        && r.value.category == f.category && r.value.deadline == f.deadline
    ensures (r.Some? && SurvivesAttribute(f.name) && SurvivesAttribute(f.category)
             && IsValidDateString(f.deadline)) ==> EditFormOf(r.value) == f
  {
    match f.targetAmount
    case None => None
    case Some(t) => Some(g.(name := f.name, targetAmount := t, category := f.category, deadline := f.deadline))
  }

  /** Saving the edit form untouched gives back the same goal when its name,
      category and deadline read back from the form unchanged. */
  lemma UnchangedEditIsIdentity(g: Goal)
    requires SurvivesAttribute(g.name) && SurvivesAttribute(g.category)
    requires IsValidDateString(g.deadline)
    ensures MergeFields(g, SubmitEdit(g, EditFormOf(g)).fields) == Some(g)
  {
  }

  /** Saving the edit form untouched truncates a name or category at its first
      double quote, so such a goal is changed by an edit nobody made. Text the
      parser rewrites is left aside, and so is a field that shows empty (a cut
      before the first character, a deadline the date input blanks): the
      `required` input then blocks the submit. */
  lemma UnchangedEditCutsAtQuote(g: Goal)
    requires UnalteredByParser(g.name) && UnalteredByParser(g.category)
    requires AttributeText(g.name) != "" && AttributeText(g.category) != ""
    requires IsValidDateString(g.deadline)
    ensures var r := MergeFields(g, SubmitEdit(g, EditFormOf(g)).fields).value;
            && r.name == AttributeText(g.name) && r.category == AttributeText(g.category)
            && ('"' in g.name || '"' in g.category <==> r != g)
  {
  }

  /** The edit form of a goal named `Buy 65" TV` shows `Buy 65`. */
  lemma QuotedNameExample(g: Goal)
    requires g.name == "Buy 65\" TV"
    ensures EditFormOf(g).name == "Buy 65"
  {
    assert g.name[6] == '"';
    assert AttributeText(g.name) == g.name[..6] by {
      assert g.name[..6] == "Buy 65";
    }
  }

  /** A freshly created goal reopens in the edit form exactly as it was typed
      (when its name and category survive the unescaped attribute and its
      deadline is a valid date string), with nothing saved, and its bar starts at
      0 percent when the target is positive. */
  lemma NewGoalRoundTrip(form: GoalForm, today: DateText, id: Id)
    requires form.targetAmount.Some?
    requires SurvivesAttribute(form.name) && SurvivesAttribute(form.category)
    requires IsValidDateString(form.deadline)
    ensures Materialize(SubmitNewGoal(form, today).record, id).Some?
    ensures var g := Materialize(SubmitNewGoal(form, today).record, id).value;
            && EditFormOf(g) == form
            && g.id == id && g.savedAmount == 0.0 && g.createdAt == today
            && (g.targetAmount > 0.0 ==> GoalProgress(g) == Whole(0))
  {
    var g := Materialize(SubmitNewGoal(form, today).record, id).value;
    if g.targetAmount > 0.0 {
      assert 0.0 / g.targetAmount * 100.0 == 0.0;
    }
  }

  /** An accepted deposit changes only the saved amount, never un-completes a goal,
      and never shrinks its progress bar. */
  lemma DepositOnlyRaisesSavings(g: Goal, amount: Option<real>)
    requires SubmitDeposit(g, amount).Success?
    ensures var g' := MergeSaved(g, SubmitDeposit(g, amount).value.savedAmount);
            && g'.(savedAmount := g.savedAmount) == g
            && g'.savedAmount == g.savedAmount + amount.value
            && (IsComplete(g) ==> IsComplete(g'))
            && (g.targetAmount > 0.0 ==> GoalProgress(g).p <= GoalProgress(g').p)
  {
    var g' := MergeSaved(g, SubmitDeposit(g, amount).value.savedAmount);
    if g.targetAmount > 0.0 {
      ProgressMonotone(g.savedAmount, g'.savedAmount, g.targetAmount);
    }
  }
}

=== FILE: overview.dfy ===
/** The overview panel: goal count, total saved, completed count and the list of
    deadline warnings, all derived from the fetched goal list. */
module Overview {
  import opened Wrappers
  import opened Goals

  /** Sum of the saved amounts, folded left to right from 0 like `reduce`. */
  function TotalSaved(gs: seq<Goal>): (r: real)
    ensures NoNegativeSavings(gs) ==> r >= 0.0
  {
    if |gs| == 0 then 0.0
    else
      assert NoNegativeSavings(gs) ==> NoNegativeSavings(gs[..|gs| - 1]);
      TotalSaved(gs[..|gs| - 1]) + gs[|gs| - 1].savedAmount
  }

  /** No goal of the list has negative savings. */
  predicate NoNegativeSavings(gs: seq<Goal>) {
    forall i :: 0 <= i < |gs| ==> gs[i].savedAmount >= 0.0
  }

  /** Totals add up over a split of the list. */
  lemma {:induction false} TotalSavedAppend(a: seq<Goal>, b: seq<Goal>)
    ensures TotalSaved(a + b) == TotalSaved(a) + TotalSaved(b)
  {
    if |b| > 0 {
      var n := |b| - 1;
      TotalSavedAppend(a, b[..n]);
      assert (a + b)[..|a + b| - 1] == a + b[..n];
    } else {
      assert a + b == a;
    }
  }

  /** Lists that agree on every saved amount have the same total. */
  lemma {:induction false} TotalSavedPointwise(a: seq<Goal>, b: seq<Goal>)
    requires |a| == |b|
    requires forall i :: 0 <= i < |a| ==> a[i].savedAmount == b[i].savedAmount
    ensures TotalSaved(a) == TotalSaved(b)
  {
    if |a| > 0 {
      TotalSavedPointwise(a[..|a| - 1], b[..|b| - 1]);
    }
  }

  /** Changing one saved amount moves the total by exactly that change. */
  lemma {:induction false} TotalSavedPointUpdate(a: seq<Goal>, b: seq<Goal>, k: int)
    requires |a| == |b| && 0 <= k < |a|
    requires forall i :: 0 <= i < |a| && i != k ==> a[i].savedAmount == b[i].savedAmount
    ensures TotalSaved(b) == TotalSaved(a) - a[k].savedAmount + b[k].savedAmount
  {
    var n := |a| - 1;
    if k == n {
      TotalSavedPointwise(a[..n], b[..n]);
    } else {
      TotalSavedPointUpdate(a[..n], b[..n], k);
    }
  }

  /** If every goal that was complete stays complete, the completed count cannot fall. */
  lemma {:induction false} CompletedMonotone(a: seq<Goal>, b: seq<Goal>)
    requires |a| == |b|
    requires forall i :: 0 <= i < |a| && IsComplete(a[i]) ==> IsComplete(b[i])
    ensures |Completed(a)| <= |Completed(b)|
  {
    if |a| > 0 {
      CompletedMonotone(a[..|a| - 1], b[..|b| - 1]);
    }
  }

  /** The total splits around any one goal. */
  lemma TotalSavedSplitAt(gs: seq<Goal>, k: int)
    requires 0 <= k < |gs|
    ensures TotalSaved(gs) == TotalSaved(gs[..k]) + gs[k].savedAmount + TotalSaved(gs[k + 1..])
  {
    var front := gs[..k + 1];
    assert gs == front + gs[k + 1..];
    TotalSavedAppend(front, gs[k + 1..]);
    assert front[..k] == gs[..k];
  }

  /** Taking the k-th goal out of the list takes its savings out of the total. */
  lemma TotalSavedWithout(gs: seq<Goal>, k: int)
    requires 0 <= k < |gs|
    ensures TotalSaved(gs[..k] + gs[k + 1..]) == TotalSaved(gs) - gs[k].savedAmount
  {
    TotalSavedSplitAt(gs, k);
    TotalSavedAppend(gs[..k], gs[k + 1..]);
  }

  /** The goals kept by `filter(g => g.savedAmount >= g.targetAmount)`, in order. */
  function Completed(gs: seq<Goal>): (r: seq<Goal>)
    ensures |r| <= |gs|
    ensures forall g :: g in r <==> g in gs && IsComplete(g)
  {
    if |gs| == 0 then []
    else
      var init := Completed(gs[..|gs| - 1]);
      assert gs == gs[..|gs| - 1] + [gs[|gs| - 1]];
      if IsComplete(gs[|gs| - 1]) then init + [gs[|gs| - 1]] else init
  }

  /** The positions of the completed goals. */
  ghost function CompletedPositions(gs: seq<Goal>): set<int> {
    set i | 0 <= i < |gs| && IsComplete(gs[i])
  }

  /** Extending the list by one goal adds its position exactly when it is complete. */
  lemma CompletedPositionsStep(gs: seq<Goal>)
    requires |gs| > 0
    ensures var n := |gs| - 1;
            CompletedPositions(gs) ==
              CompletedPositions(gs[..n]) + (if IsComplete(gs[n]) then {n} else {})
  {
    var n := |gs| - 1;
    var before := CompletedPositions(gs[..n]);
    var added: set<int> := if IsComplete(gs[n]) then {n} else {};
    forall i | i in CompletedPositions(gs)
      ensures i in before + added
    {
      if i < n {
        assert gs[..n][i] == gs[i];
      }
    }
    forall i | i in before + added
      ensures i in CompletedPositions(gs)
    {
      if i < n {
        assert gs[..n][i] == gs[i];
      }
    }
  }

  /** Adding a position that is not yet counted adds one to the count. */
  lemma AddNewPosition(before: set<int>, n: int)
    requires n !in before
    ensures |before + {n}| == |before| + 1
  {
  }

  /** The filter's length is the number of positions holding a completed goal, so
      goals with equal contents are each counted. */
  lemma {:induction false} CompletedCountsPositions(gs: seq<Goal>)
    ensures |Completed(gs)| == |CompletedPositions(gs)|
  {
    if |gs| > 0 {
      var n := |gs| - 1;
      CompletedCountsPositions(gs[..n]);
      CompletedPositionsStep(gs);
      var before := CompletedPositions(gs[..n]);
      assert n !in before;
      if IsComplete(gs[n]) {
        AddNewPosition(before, n);
      }
    }
  }

  /** The three figures of the overview panel. */
  datatype Stats = Stats(totalGoals: nat, totalSaved: real, goalsCompleted: nat)

  /** The two warning styles: red for a passed deadline, orange for one within the window. */
  datatype Severity = Overdue | Upcoming

  /** A deadline at most this many days ahead draws an Upcoming warning. */
  const UpcomingWindowDays: real := 30.0

  /** One line of the warnings panel. */
  datatype Warning = Warning(severity: Severity, name: string, deadline: DateText)

  /** The text of a warning line. */
  function Text(w: Warning): (t: string)
    ensures "Goal \"" + w.name + "\" " <= t
  {
    match w.severity
    case Overdue => "Goal \"" + w.name + "\" is Overdue! Deadline was " + w.deadline + "."
    case Upcoming => "Goal \"" + w.name + "\" deadline is within 30 days (" + w.deadline + ")."
  }

  /** The warning, if any, for goal `g` given the days left until its deadline
      (None when the deadline does not parse and the difference is NaN: both
      comparisons are then false). */
  function Classify(g: Goal, daysLeft: Option<real>): (r: Option<Severity>)
    ensures IsComplete(g) ==> r == None
    ensures r == Some(Overdue) <==> !IsComplete(g) && daysLeft.Some? && daysLeft.value < 0.0
    ensures r == Some(Upcoming) <==>
              !IsComplete(g) && daysLeft.Some? && 0.0 <= daysLeft.value <= UpcomingWindowDays
  {
    if g.savedAmount < g.targetAmount then
      match daysLeft
      case None => None
      case Some(d) =>
        if d < 0.0 then Some(Overdue)
        else if d <= UpcomingWindowDays then Some(Upcoming)
        else None
    else None
  }

  /** The severity goal `g` gets when `daysUntil` turns a deadline into the days left
      from the moment the panel is drawn. */
  function SeverityOf(g: Goal, daysUntil: DateText -> Option<real>): Option<Severity> {
    Classify(g, daysUntil(g.deadline))
  }

  /** The warnings panel, built goal by goal in list order. */
  function Warnings(gs: seq<Goal>, daysUntil: DateText -> Option<real>): (ws: seq<Warning>)
    ensures |ws| <= |gs|
  {
    if |gs| == 0 then []
    else
      var init := Warnings(gs[..|gs| - 1], daysUntil);
      var g := gs[|gs| - 1];
      match SeverityOf(g, daysUntil)
      case None => init
      case Some(s) => init + [Warning(s, g.name, g.deadline)]
  }

  /** The positions of the goals that draw a warning, in increasing order. */
  function WarnedPositions(gs: seq<Goal>, daysUntil: DateText -> Option<real>): (idx: seq<int>)
    ensures forall k :: 0 <= k < |idx| ==> 0 <= idx[k] < |gs|
  {
    if |gs| == 0 then []
    else
      var init := WarnedPositions(gs[..|gs| - 1], daysUntil);
      if SeverityOf(gs[|gs| - 1], daysUntil).Some? then init + [|gs| - 1] else init
  }

  /** One warning line per warned position. */
  lemma {:induction false} WarningsMatchPositionsInLength(gs: seq<Goal>, daysUntil: DateText -> Option<real>)
    ensures |Warnings(gs, daysUntil)| == |WarnedPositions(gs, daysUntil)|
  {
    if |gs| > 0 {
      WarningsMatchPositionsInLength(gs[..|gs| - 1], daysUntil);
    }
  }

  /** Strictly increasing: in order and without repeats. */
  predicate StrictlyIncreasing(s: seq<int>) {
    forall k, l :: 0 <= k < l < |s| ==> s[k] < s[l]
  }

  /** Warned positions come in goal order and none is repeated. */
  lemma {:induction false} WarnedPositionsIncrease(gs: seq<Goal>, daysUntil: DateText -> Option<real>)
    ensures StrictlyIncreasing(WarnedPositions(gs, daysUntil))
  {
    if |gs| > 0 {
      var n := |gs| - 1;
      WarnedPositionsIncrease(gs[..n], daysUntil);
      var init := WarnedPositions(gs[..n], daysUntil);
      var idx := WarnedPositions(gs, daysUntil);
      if SeverityOf(gs[n], daysUntil).Some? {
        assert idx == init + [n];
        forall k, l | 0 <= k < l < |idx|
          ensures idx[k] < idx[l]
        {
          assert idx[k] == init[k];
          if l == |init| {
            assert init[k] < |gs[..n]|;
          } else {
            assert idx[l] == init[l];
          }
        }
      } else {
        assert idx == init;
      }
    }
  }

  /** A position is warned exactly when its goal is classified, so a completed goal
      never is. */
  lemma {:induction false} WarnedPositionsExact(gs: seq<Goal>, daysUntil: DateText -> Option<real>)
    ensures forall i :: i in WarnedPositions(gs, daysUntil) <==>
              0 <= i < |gs| && SeverityOf(gs[i], daysUntil).Some?
  {
    if |gs| > 0 {
      var n := |gs| - 1;
      WarnedPositionsExact(gs[..n], daysUntil);
      assert forall i :: 0 <= i < n ==> gs[..n][i] == gs[i];
    }
  }

  /** The k-th warning line is built from the goal at the k-th warned position. */
  lemma {:induction false} WarningsComeFromWarnedGoals(gs: seq<Goal>, daysUntil: DateText -> Option<real>)
    ensures var ws := Warnings(gs, daysUntil);
            var idx := WarnedPositions(gs, daysUntil);
            forall k :: 0 <= k < |ws| && k < |idx| ==>
              && SeverityOf(gs[idx[k]], daysUntil) == Some(ws[k].severity)
              && ws[k].name == gs[idx[k]].name
              && ws[k].deadline == gs[idx[k]].deadline
  {
    if |gs| > 0 {
      var n := |gs| - 1;
      WarningsComeFromWarnedGoals(gs[..n], daysUntil);
      WarningsMatchPositionsInLength(gs[..n], daysUntil);
      WarnedPositionsExact(gs[..n], daysUntil);
      assert forall i :: 0 <= i < n ==> gs[..n][i] == gs[i];
    }
  }

  /** At most one warning per incomplete goal. */
  lemma {:induction false} WarningsBound(gs: seq<Goal>, daysUntil: DateText -> Option<real>)
    ensures |Warnings(gs, daysUntil)| <= |gs| - |Completed(gs)|
  {
    if |gs| > 0 {
      WarningsBound(gs[..|gs| - 1], daysUntil);
    }
  }

  /** `updateOverview` without the DOM: the reduce, the filter and the forEach over
      the fetched goals. */
  method ComputeOverview(gs: seq<Goal>, daysUntil: DateText -> Option<real>)
    returns (stats: Stats, ws: seq<Warning>)
    ensures stats.totalGoals == |gs|
    ensures stats.totalSaved == TotalSaved(gs)
    ensures stats.goalsCompleted == |Completed(gs)|
    ensures stats.goalsCompleted <= stats.totalGoals
    ensures ws == Warnings(gs, daysUntil)
    ensures |ws| + stats.goalsCompleted <= stats.totalGoals
  {
    var saved := 0.0;
    var completed := 0;
    ws := [];
    var i := 0;
    while i < |gs|
      invariant 0 <= i <= |gs|
      invariant saved == TotalSaved(gs[..i])
      invariant completed == |Completed(gs[..i])|
      invariant ws == Warnings(gs[..i], daysUntil)
    {
      var g := gs[i];
      assert gs[..i + 1][..i] == gs[..i];
      saved := saved + g.savedAmount;
      if g.savedAmount >= g.targetAmount {
        completed := completed + 1;
      }
      var severity := Classify(g, daysUntil(g.deadline));
      if severity.Some? {
        ws := ws + [Warning(severity.value, g.name, g.deadline)];
      }
      i := i + 1;
    }
    assert gs[..i] == gs;
    WarningsBound(gs, daysUntil);
    stats := Stats(|gs|, saved, completed);
  }

  /** Two goals: one that reached its 1000 target and whose deadline was yesterday
      draws nothing, one at 100 of 500 due in ten days draws an Upcoming line. */
  lemma OverviewExample()
    ensures var gs := [
              Goal("1", "Laptop", 1000.0, 1000.0, "Tech", "2026-10-09", "2026-01-01"),
              Goal("2", "Trip", 500.0, 100.0, "Travel", "2026-10-20", "2026-01-01")];
            var daysUntil := (d: DateText) => if d == "2026-10-09" then Some(-1.0) else Some(10.0);
            && TotalSaved(gs) == 1100.0
            && |Completed(gs)| == 1
            && Warnings(gs, daysUntil) == [Warning(Upcoming, "Trip", "2026-10-20")]
  {
    var gs := [
      Goal("1", "Laptop", 1000.0, 1000.0, "Tech", "2026-10-09", "2026-01-01"),
      Goal("2", "Trip", 500.0, 100.0, "Travel", "2026-10-20", "2026-01-01")];
    assert gs[..1] == [gs[0]];
    assert gs[..1][..0] == [];
  }
}

=== FILE: progress.dfy ===
/** The progress percentage drawn on each goal card. */
module Progress {
  import opened Goals

  /** The JavaScript number `Math.min(100, Math.floor(saved / target * 100))` can evaluate to.
      A zero target divides to Infinity (clamped to 100), NaN (0 / 0) or -Infinity
      (which `Math.floor` and `Math.min` both pass through). */
  datatype Percent = Whole(p: int) | MinusInfinity | NotANumber

  function ProgressOf(saved: real, target: real): (r: Percent)
    ensures r.Whole? ==> r.p <= 100
    ensures target != 0.0 ==> r.Whole?
    ensures target > 0.0 && saved >= 0.0 ==> r.Whole? && 0 <= r.p
    ensures target == 0.0 ==> (r.Whole? <==> saved > 0.0) && (r.NotANumber? <==> saved == 0.0)
    ensures target == 0.0 && saved > 0.0 ==> r == Whole(100)
    ensures target == 0.0 && saved < 0.0 ==> r == MinusInfinity
  {
    if target == 0.0 then
      if saved > 0.0 then Whole(100)
      else if saved < 0.0 then MinusInfinity
      else NotANumber
    else
      var f := PercentFloor(saved, target);
      if f < 100 then Whole(f) else Whole(100)
  }

  /** `Math.floor(saved / target * 100)` for a non-zero target. */
  function PercentFloor(saved: real, target: real): int
    requires target != 0.0
  {
    (saved / target * 100.0).Floor
  }

  /** The bar width of one goal card. */
  function GoalProgress(g: Goal): Percent {
    ProgressOf(g.savedAmount, g.targetAmount)
  }

  /** Scaling by a positive factor keeps a strict or weak order. */
  lemma ScaleKeepsOrder(a: real, b: real, c: real)
    requires c > 0.0
    ensures a <= b ==> a * c <= b * c
    ensures a < b ==> a * c < b * c
  {
  }

  /** `Floor` brackets the exact ratio scaled back to amounts. */
  lemma FloorBracketsSaved(saved: real, target: real)
    requires target > 0.0
    ensures PercentFloor(saved, target) as real * target <= 100.0 * saved
    ensures 100.0 * saved < (PercentFloor(saved, target) as real + 1.0) * target
  {
    var q := saved / target * 100.0;
    var f := PercentFloor(saved, target);
    assert q * target == 100.0 * saved;
    assert f as real <= q < f as real + 1.0;
    ScaleKeepsOrder(f as real, q, target);
    ScaleKeepsOrder(q, f as real + 1.0, target);
    assert q * target < (f as real + 1.0) * target;
    assert 100.0 * saved < (f as real + 1.0) * target;
  }

  /** For a positive target the shown percentage is characterised without `Floor`:
      it is the largest whole p <= 100 such that p percent of the target is saved. */
  lemma ProgressIsLargestCoveredPercent(saved: real, target: real)
    requires target > 0.0
    ensures ProgressOf(saved, target).Whole?
    ensures var p := ProgressOf(saved, target).p;
            && p as real * target <= 100.0 * saved
            && (p == 100 || 100.0 * saved < (p + 1) as real * target)
    ensures PercentFloor(saved, target) < 100 ==> ProgressOf(saved, target).p == PercentFloor(saved, target)
  {
    var f := PercentFloor(saved, target);
    FloorBracketsSaved(saved, target);
    var p := ProgressOf(saved, target).p;
    if f < 100 {
      assert p == f;
      assert (p + 1) as real == f as real + 1.0;
    } else {
      assert p == 100;
      assert 100.0 <= f as real;
      ScaleKeepsOrder(100.0, f as real, target);
      assert p as real * target <= f as real * target;
    }
  }

  /** The bar is full exactly when the goal is complete (positive target). */
  lemma ProgressFullIffComplete(saved: real, target: real)
    requires target > 0.0
    ensures ProgressOf(saved, target) == Whole(100) <==> saved >= target
  {
    ProgressIsLargestCoveredPercent(saved, target);
    var p := ProgressOf(saved, target).p;
    if saved >= target {
      // were the bar short, (p + 1) percent of the target would exceed the savings
      assert p < 100 ==> (p + 1) as real <= 100.0;
      ScaleKeepsOrder((p + 1) as real, 100.0, target);
      assert 100.0 * target <= 100.0 * saved;
      assert p == 100 || 100.0 * saved < (p + 1) as real * target;
      assert p < 100 ==> (p + 1) as real * target <= 100.0 * target;
      assert p == 100;
    } else {
      // a full bar would mean the whole target is saved
      assert 100.0 * saved < 100.0 * target;
      assert p as real * target <= 100.0 * saved;
      assert p != 100;
    }
  }

  /** More savings never shrink the bar (positive target). */
  lemma ProgressMonotone(s1: real, s2: real, target: real)
    requires target > 0.0 && s1 <= s2
    ensures ProgressOf(s1, target).p <= ProgressOf(s2, target).p
  {
    assert s1 / target <= s2 / target;
    assert s1 / target * 100.0 <= s2 / target * 100.0;
  }
}

=== FILE: store.dfy ===
/** What the next refresh fetches after a request: the goal list as the goal
    resource holds it once the request is applied. The resource itself is outside
    the planner; its behaviour is taken to be that of a plain JSON collection
    (POST appends, PATCH merges the fields sent, DELETE removes). */
module Store {
  import opened Wrappers
  import opened Goals
  import opened Mutations
  import opened Overview

  /** Every goal carrying identifier `id` passed through `f`; the others untouched. */
  function ReplaceById(gs: seq<Goal>, id: Id, f: Goal -> Goal): (r: seq<Goal>)
    ensures |r| == |gs|
    ensures forall i :: 0 <= i < |gs| ==> r[i] == if gs[i].id == id then f(gs[i]) else gs[i]
  {
    seq(|gs|, i requires 0 <= i < |gs| => if gs[i].id == id then f(gs[i]) else gs[i])
  }

  /** The goals whose identifier is not `id`, in their order. */
  function RemoveById(gs: seq<Goal>, id: Id): (r: seq<Goal>)
    ensures |r| <= |gs|
    ensures forall g :: g in r <==> g in gs && g.id != id
  {
    if |gs| == 0 then []
    else
      var init := RemoveById(gs[..|gs| - 1], id);
      assert gs == gs[..|gs| - 1] + [gs[|gs| - 1]];
      if gs[|gs| - 1].id == id then init else init + [gs[|gs| - 1]]
  }

  /** The stored list after `req`; `newId` is the identifier the resource gives a
      posted goal. None when a NaN target would be stored as `null`. */
  function Apply(gs: seq<Goal>, req: Request, newId: Id): (r: Option<seq<Goal>>)
    ensures req.PatchSaved? || req.Delete? ==> r.Some?
    ensures r.Some? && !req.Post? ==> (req.Delete? ==> |r.value| <= |gs|) && (!req.Delete? ==> |r.value| == |gs|)
    ensures r.Some? && req.Post? ==> |r.value| == |gs| + 1
  {
    match req
    case Post(rec) =>
      (match Materialize(rec, newId)
       case None => None
       case Some(g) => Some(gs + [g]))
    case PatchSaved(id, saved) => Some(ReplaceById(gs, id, g => MergeSaved(g, saved)))
    case PatchFields(id, form) =>
      (match form.targetAmount
       case None => if exists i :: 0 <= i < |gs| && gs[i].id == id then None else Some(gs)
       case Some(_) => Some(ReplaceById(gs, id, g => MergeFields(g, form).value)))
    case Delete(id) => Some(RemoveById(gs, id))
  }

  /** Removal distributes over a split of the list. */
  lemma {:induction false} RemoveByIdAppend(a: seq<Goal>, b: seq<Goal>, id: Id)
    ensures RemoveById(a + b, id) == RemoveById(a, id) + RemoveById(b, id)
  {
    if |b| > 0 {
      var n := |b| - 1;
      RemoveByIdAppend(a, b[..n], id);
      assert (a + b)[..|a + b| - 1] == a + b[..n];
    } else {
      assert a + b == a;
    }
  }

  /** Removing an identifier nobody carries changes nothing. */
  lemma {:induction false} RemoveAbsentId(gs: seq<Goal>, id: Id)
    requires forall i :: 0 <= i < |gs| ==> gs[i].id != id
    ensures RemoveById(gs, id) == gs
  {
    if |gs| > 0 {
      var n := |gs| - 1;
      RemoveAbsentId(gs[..n], id);
      assert gs[..n] + [gs[n]] == gs;
    }
  }

  /** In a list with distinct identifiers, removing the k-th goal's identifier
      takes out that goal and keeps the rest in order. */
  lemma RemoveUniqueAt(gs: seq<Goal>, k: int)
    requires UniqueIds(gs) && 0 <= k < |gs|
    ensures RemoveById(gs, gs[k].id) == gs[..k] + gs[k + 1..]
  {
    var id := gs[k].id;
    var before, after := gs[..k], gs[k + 1..];
    assert gs == before + [gs[k]] + after;
    forall i | 0 <= i < |after|
      ensures after[i].id != id
    {
      assert after[i] == gs[k + 1 + i];
    }
    RemoveAbsentId(before, id);
    RemoveAbsentId(after, id);
    RemoveByIdAppend(before + [gs[k]], after, id);
    RemoveByIdAppend(before, [gs[k]], id);
    assert RemoveById([gs[k]], id) == [];
  }

  /** A confirmed delete of the k-th goal of a list with distinct identifiers
      removes that goal and no other, keeps the rest in order, and takes one goal
      and its savings out of the overview. */
  lemma ConfirmedDeleteRemovesOneGoal(gs: seq<Goal>, k: int, newId: Id)
    requires UniqueIds(gs) && 0 <= k < |gs|
    ensures Apply(gs, ClickDelete(gs[k], true).value, newId) == Some(gs[..k] + gs[k + 1..])
    ensures TotalSaved(gs[..k] + gs[k + 1..]) == TotalSaved(gs) - gs[k].savedAmount
  {
    var req := ClickDelete(gs[k], true).value;
    assert req == Delete(gs[k].id);
    var r := RemoveById(gs, gs[k].id);
    assert Apply(gs, req, newId) == Some(r);
    RemoveUniqueAt(gs, k);
    TotalSavedWithout(gs, k);
  }

  /** An accepted deposit on the k-th goal of a freshly fetched list with distinct
      identifiers raises the total saved by exactly the amount, keeps the goal
      count and never lowers the completed count. */
  lemma DepositRaisesTotalByAmount(gs: seq<Goal>, k: int, amount: Option<real>, newId: Id)
    requires UniqueIds(gs) && 0 <= k < |gs|
    requires SubmitDeposit(gs[k], amount).Success?
    ensures Apply(gs, SubmitDeposit(gs[k], amount).value, newId).Some?
    ensures var r := Apply(gs, SubmitDeposit(gs[k], amount).value, newId).value;
            && |r| == |gs|
            && TotalSaved(r) == TotalSaved(gs) + amount.value
            && |Completed(gs)| <= |Completed(r)|
  {
    var req := SubmitDeposit(gs[k], amount).value;
    var r := Apply(gs, req, newId).value;
    assert forall i :: 0 <= i < |gs| && i != k ==> r[i] == gs[i];
    assert r[k] == gs[k].(savedAmount := gs[k].savedAmount + amount.value);
    TotalSavedPointUpdate(gs, r, k);
    CompletedMonotone(gs, r);
  }

  /** A saved edit with a numeric target keeps the goal count and the total saved. */
  lemma EditKeepsTotalSaved(gs: seq<Goal>, g: Goal, form: GoalForm, newId: Id)
    requires form.targetAmount.Some?
    ensures Apply(gs, SubmitEdit(g, form), newId).Some?
    ensures var r := Apply(gs, SubmitEdit(g, form), newId).value;
            |r| == |gs| && TotalSaved(r) == TotalSaved(gs)
  {
    var r := Apply(gs, SubmitEdit(g, form), newId).value;
    TotalSavedPointwise(gs, r);
  }

  /** A created goal with a numeric target joins the end of the list with nothing
      saved: the total is unchanged and it counts as completed only when its
      target is not positive. */
  lemma CreateAppendsEmptyGoal(gs: seq<Goal>, form: GoalForm, today: DateText, newId: Id)
    requires form.targetAmount.Some?
    ensures Apply(gs, SubmitNewGoal(form, today), newId).Some?
    ensures var r := Apply(gs, SubmitNewGoal(form, today), newId).value;
            && r[..|gs|] == gs
            && r[|gs|].id == newId && r[|gs|].savedAmount == 0.0
            && TotalSaved(r) == TotalSaved(gs)
            && |Completed(r)| == |Completed(gs)| + (if form.targetAmount.value <= 0.0 then 1 else 0)
  {
    var r := Apply(gs, SubmitNewGoal(form, today), newId).value;
    assert r[..|r| - 1] == gs;
  }
}

=== FILE: wrappers.dfy ===
/** Failure-carrying wrappers used across the model.
    - Option<T> stands for a parsed JavaScript number: None is NaN.
    - Result<R, E> stands for a handler that either issues a request or shows an alert. */
module Wrappers {

  datatype Option<+T> = None | Some(value: T)

  datatype Result<+R, +E> = Success(value: R) | Failure(error: E)
}
